=== FILE: README.md ===
# PID Controller Virtual Lab — numerical kernels in Dafny

This project models the computational core of the PID Controller Virtual Lab.
That core is the four simulation functions behind the lab's apps. Everything
around them is Streamlit presentation.

- **The discrete PID tick** shared by the tank, oven and heat-exchanger
  simulators. Each tick does the following, in order:
  - the integral grows by `error * dt`;
  - the derivative is the backward difference `(error - prev_error) / dt`;
  - the controller output is `Kp * error + Ki * integral + Kd * derivative`;
  - the error is remembered for the next tick.

  The remembered error is seeded with the first error, so the first tick has
  no derivative kick.
- **Three fixed-step closed loops**, which share one driver
  (`ClosedLoop.Simulate`). Each tick saturates the controller output into the
  actuator's range and advances a first-order process. It then records the
  tick index and the post-update process output.
  - `simulate_tank`: the inflow is clamped to `[0, max_inflow]`, the outflow
    is `0.5 * h`, an Euler step applies, and the level is cut off at zero.
  - `simulate_oven`: the heater power is clamped to `[0, 100]`. The thermal
    balance has heat capacity 100, heat-loss coefficient 0.1 and ambient 25.
  - `simulate_heat_exchanger`: the effective UA is `UA_base` plus the
    controller output, clamped to `[100, 2000]`. The outlet update is
    `T_in - UA * (T_out - T_cool) / (m_dot * Cp + 1e-6)`.
- **`distillation_column`**, a tray recurrence with no feedback:
  - the feed tray holds the feed composition;
  - the rectifying sweep walks up from the feed tray, computing
    `y = α x / (1 + (α - 1) x)` and `x_above = y / (R + 1)`;
  - the stripping sweep walks down from the feed tray, computing
    `x_below = clamp01((R + 1) x - R y)`.

Values are Dafny `real`s, and histories and profiles are `seq<real>`.
Python's `max`/`min` and the `max(lo, min(hi, v))` clamp are modelled exactly,
including the inverted-bounds case. Python's `ZeroDivisionError` is modelled
as an error result, and so are numpy's allocation and indexing errors. The
datatypes are `Fault` and `Result` (in `results.dfy`).

Files, one module each:

| file | module | contents |
|---|---|---|
| `saturation.dfy` | `Saturation` | Python `max`, `min`, the clamp idiom |
| `results.dfy` | `Results` | `Fault`, `Result` |
| `pid.dfy` | `Pid` | one controller tick, the fold of ticks over an error sequence, the integral as a rectangle-rule sum |
| `plants.dfy` | `Plants` | the three processes' actuator clamps and one-tick updates, their constants, dispatch over the process kind |
| `closed_loop.dfy` | `ClosedLoop` | the shared driver loop, a recursive reference run `Run`, the error sequence a run sees |
| `tank_app.dfy`, `oven_app.dfy`, `heat_exchanger_app.dfy` | `TankApp`, `OvenApp`, `HeatExchangerApp` | the three `simulate_*` entry points with the parameter lists of the Python functions, per-process lemmas |
| `distillation.dfy` | `Distillation` | the two sweeps as loops, reference recursions `RectX`/`StripX` for each tray's composition, profile lemmas |

Every simulator method is tied to an independent reference definition:
- `ClosedLoop.Simulate` records exactly `Run(cfg, k + 1).value` at index `k`.
- `Distillation.DistillationColumn` returns exactly the profile that
  `RectX`/`StripX` describe.

Lemmas over the reference definitions state the properties.

## Model

| member | source | states |
|---|---|---|
| Saturation.Max | tank_pid_app.py:19 | Python `max(a, b)`: the result is at least both arguments and is one of them |
| Saturation.Min | tank_pid_app.py:19 | Python `min(a, b)`: the result is at most both arguments and is one of them |
| Saturation.ClampCases | tank_pid_app.py:19 | `max(lo, min(hi, v))` is never below `lo`, and stays at or below `hi` when `lo <= hi`. It returns `v` inside the interval and saturates at the nearer bound outside it. With inverted bounds it returns `lo` |
| Pid.Update | tank_pid_app.py:14-18 | One tick: the new memory is the old integral plus `e * dt` with `e` remembered. The derivative times `dt` is the error difference, and the derivative is zero exactly when the error did not change. The output is `Kp e + Ki integral' + Kd derivative` |
| Pid.FeedAccumulates | tank_pid_app.py:10-26 | After any sequence of ticks the integral has grown by `dt` times the sum of the errors, and the remembered error is the last one. With no ticks nothing changes |
| Pid.FeedFromRest | tank_pid_app.py:10-15 | Starting from a zero integral, the integral after the ticks is the rectangle-rule integral `dt * Σ errors` |
| Plants.TankInflow | tank_pid_app.py:18-19 | The applied inflow is never negative, and at most `max_inflow` when that is non-negative. It equals the controller output inside the range and saturates at the bounds. It is 0 whenever the controller output is not positive or `max_inflow` is negative |
| Plants.TankLevel | tank_pid_app.py:21-24 | The new level is never negative. When positive it satisfies `(h' - h) A = (inflow - 0.5 h) dt`. It is zero exactly when the Euler step would go to or below zero: `h A + (inflow - 0.5 h) dt <= 0` for a positive area, and `>= 0` for a negative one |
| Plants.OvenPower | oven_pid_app.py:25-26 | The heater power lies in [0, 100]. It equals the controller output inside that range and saturates at 0 or 100 outside it |
| Plants.OvenTemperature | oven_pid_app.py:16-30 | The new temperature satisfies `(T' - T) · 100 = (power - 0.1 (T - 25)) dt`. At ambient with zero power it stays at ambient |
| Plants.OvenCoolsTowardAmbient | oven_pid_app.py:28-30 | With the heater off and `0 <= dt <= 1000`, a tick moves the temperature toward ambient without overshooting it, from either side |
| Plants.ExchangerUa | heat_exchanger_pid_app.py:22-23 | The effective UA lies in [100, 2000]. It equals `UA_base + output` inside that range and saturates at the bounds outside it |
| Plants.ExchangerOutlet | heat_exchanger_pid_app.py:25-27 | The new outlet satisfies the energy balance `(T_in - T_out') (m_dot Cp + 1e-6) = UA (T_out - T_cool)`. It equals `T_in` when `T_out == T_cool`. It is at most `T_in` when `m_dot Cp >= 0`, `T_out >= T_cool` and `UA >= 0` |
| ClosedLoop.Init | tank_pid_app.py:9-11 | Before the first tick the process is at its initial value (tank level 0, oven at 25, outlet at `T_in`), the integral is zero, and the remembered error is the setpoint minus that value, the error the first tick will see |
| ClosedLoop.Step | tank_pid_app.py:14-26 | A tick measures the error against the output it starts from and remembers it. The integral grows by exactly `e dt`. The derivative and the controller output are those of `Pid.Update` on that error, so the derivative is zero exactly when the error repeats the remembered one. The actuator receives the saturated controller output, and the process advances under that actuation |
| ClosedLoop.Run | tank_pid_app.py:9-24 | Before any tick the state is the rest state of `Init`. A tank level is non-negative after any number of ticks |
| ClosedLoop.ErrorsAreSetpointGaps | tank_pid_app.py:13-14 | The j-th error a run sees is the setpoint minus the process output the j-th tick started from |
| ClosedLoop.FirstTickIsSpikeFree | tank_pid_app.py:9-18 | Because the remembered error is seeded with the first error, the first tick's derivative is zero. Its output is `Kp e + Ki e dt` |
| ClosedLoop.ControllerReplaysErrors | tank_pid_app.py:13-26 | The controller memory after k ticks is the PID memory fed exactly the k errors those ticks saw, in order. The loop keeps no other controller state |
| ClosedLoop.IntegralIsScaledErrorSum | tank_pid_app.py:10-15 | After k ticks the integral equals `dt` times the sum of the k errors seen |
| ClosedLoop.PrevErrorIsLastError | heat_exchanger_pid_app.py:17-29 | After k > 0 ticks the remembered error is the setpoint minus the output the last tick started from |
| ClosedLoop.Simulate | tank_pid_app.py:13-30 | The run fails with a division by zero exactly when at least one tick runs with a zero divisor. Otherwise both histories have `max(0, sim_time)` entries, `time[k] == k`, and `values[k]` is the output after tick k+1 of the reference run |
| TankApp.SimulateTank | tank_pid_app.py:6-30 | Takes the same defaults as `simulate_tank` (setpoint 5.0, 100 ticks, dt 1.0, area 1.0, maximum inflow 5.0). `simulate_tank` fails exactly when a tick runs with `dt == 0` or `A == 0`. Otherwise the histories have `sim_time` entries with `time[k] == k`. Every level is the post-update level of the reference run and is non-negative. With all gains zero every level is 0 |
| TankApp.InflowWithinLimits | tank_pid_app.py:18-19 | Each tick's applied inflow is non-negative, and at most `max_inflow` when that is non-negative |
| TankApp.LevelAfterTickNonNegative | tank_pid_app.py:23-24 | The level after any tick is non-negative |
| TankApp.TankTickIsLoopBody | tank_pid_app.py:14-26 | The composed model tick equals the loop body written out: error, integral, derivative, clamped inflow, level update, remembered error |
| TankApp.ZeroGainsTickKeepsEmpty | tank_pid_app.py:18-24 | With zero gains an empty tank receives no inflow and stays empty for one tick |
| TankApp.ZeroGainsStayEmpty | tank_pid_app.py:9-28 | With zero gains the level is 0 after every number of ticks, and no tick applies inflow |
| OvenApp.SimulateOven | oven_pid_app.py:8-36 | Takes the same defaults as `simulate_oven` (setpoint 200, 200 ticks, dt 1.0). `simulate_oven` fails exactly when a tick runs with `dt == 0`. Otherwise the histories have `sim_time` entries with `t_hist[k] == k`, and every temperature is the post-update one. With `T_set == 25` every temperature is 25 |
| OvenApp.OvenTickIsLoopBody | oven_pid_app.py:21-32 | The composed model tick equals the loop body written out with its constants |
| OvenApp.PowerWithinLimits | oven_pid_app.py:25-26 | Each tick's applied heater power lies in [0, 100] |
| OvenApp.AmbientTickIsFixed | oven_pid_app.py:21-30 | At ambient, with zero integral and zero remembered error, a tick with setpoint 25 applies no power and changes nothing |
| OvenApp.HoldsAmbient | oven_pid_app.py:9-33 | With `T_set == 25`, after any number of ticks the oven is at 25 with zero integral and zero remembered error |
| HeatExchangerApp.SimulateHeatExchanger | heat_exchanger_pid_app.py:8-33 | Takes the same defaults as `simulate_heat_exchanger` (200 ticks, dt 1.0). `simulate_heat_exchanger` fails exactly when a tick runs with `dt == 0` or `m_dot Cp + 1e-6 == 0`. Otherwise the histories have `sim_time` entries with `t_hist[k] == k`, and every outlet temperature is the post-update one. With `T_in == T_cool` every outlet temperature is `T_in` |
| HeatExchangerApp.ExchangerTickIsLoopBody | heat_exchanger_pid_app.py:17-29 | The composed model tick equals the loop body written out |
| HeatExchangerApp.TickBounds | heat_exchanger_pid_app.py:22-27 | Each tick's UA lies in [100, 2000]. From an outlet no colder than the coolant, with `m_dot Cp >= 0`, the next outlet is no hotter than the inlet |
| HeatExchangerApp.PassesThroughWhenCoolantMatches | heat_exchanger_pid_app.py:9-30 | With `T_in == T_cool` the outlet stays at `T_in` after every number of ticks |
| Distillation.Equilibrium | distillation_column_app.py:13 | The vapour composition satisfies `y (1 + (α - 1) x) = α x`, which fixes it whenever the divisor is non-zero. The equilibrium vapour of a pure heavy liquid (`x == 0`) is 0, that of a pure light liquid (`x == 1`) is 1, and with `α == 1` the vapour equals the liquid |
| Distillation.EquilibriumInUnitInterval | distillation_column_app.py:13 | For `α > 0` and `x` in [0, 1] the equilibrium divisor is positive and `y` lies in [0, 1] |
| Distillation.EquilibriumBelowLine | distillation_column_app.py:13 | For `α >= 1` and `x` in [0, 1], `y <= α x` |
| Distillation.RectStep | distillation_column_app.py:12-14 | One rectifying step: the liquid on tray i is the equilibrium vapour of tray i+1 divided by `R + 1` |
| Distillation.StripStep | distillation_column_app.py:17-20 | One stripping step: the liquid on tray j is the clamped stripping line from tray j-1 |
| Distillation.StripNext | distillation_column_app.py:19-20 | The liquid on the next stripping tray always lies in [0, 1]. It equals the stripping line `(R + 1) x - R y` whenever that already lies in [0, 1], is 0 when the line is at or below 0, and is 1 when the line is at or above 1 |
| Distillation.RectOkAbove | distillation_column_app.py:12-14 | If the rectifying sweep reaches tray i without a zero divisor, every tray between i and the feed is reached too |
| Distillation.StripOkAbove | distillation_column_app.py:17-20 | If the stripping sweep reaches tray j without a zero divisor, every tray between the feed and j is reached too |
| Distillation.StripBelowFeedInUnitInterval | distillation_column_app.py:19-20 | Every stripping composition below the feed tray lies in [0, 1] |
| Distillation.RectNextInUnitInterval | distillation_column_app.py:13-14 | For `α > 0` and `R >= 0`, one rectifying step keeps a composition in [0, 1] and meets no zero divisor |
| Distillation.RectNextNotRicher | distillation_column_app.py:13-14 | For `1 <= α <= R + 1`, one rectifying step never makes the liquid richer |
| Distillation.RectInUnitInterval | distillation_column_app.py:12-14 | For `α > 0`, `R >= 0` and `zF` in [0, 1], every rectifying tray is computed and lies in [0, 1] |
| Distillation.StripInUnitInterval | distillation_column_app.py:17-20 | For `α > 0` and `zF` in [0, 1], every stripping tray is computed and lies in [0, 1] |
| Distillation.RectLeanerUpward | distillation_column_app.py:12-14 | For `1 <= α <= R + 1` and `zF` in [0, 1], each rectifying tray is no richer than the tray below it |
| Distillation.TopNotRicherThanFeed | distillation_column_app.py:9-14 | For `1 <= α <= R + 1` and `zF` in [0, 1], no rectifying tray, the top one included, is richer than the feed |
| Distillation.ProfileRecurrences | distillation_column_app.py:9-20 | In any computed profile, `x[feed] == zF`. For i < feed, `x[i] = y[i+1] / (R + 1)`. For j > feed, `x[j] = clamp01((R + 1) x[j-1] - R y[j-1])`. `y[feed]` is the equilibrium vapour of `zF` whenever a sweep writes it |
| Distillation.StripRecurrence | distillation_column_app.py:18-20 | The stripping recurrence between trays j-1 and j of a computed profile |
| Distillation.EndVapoursUnwritten | distillation_column_app.py:8-18 | `y[0]` stays 0 when the feed is below tray 0, and `y[N]` stays 0 when the feed is above tray N |
| Distillation.ProfileInUnitInterval | distillation_column_app.py:12-20 | On the slider domains (`α > 0`, `R >= 0`, `zF` in [0, 1]) the profile is always computed and every `x[i]` and `y[i]` lies in [0, 1] |
| Distillation.RectifyingSweep | distillation_column_app.py:7-14 | The first loop: it succeeds exactly when the reference rectifying recursion does. It then holds the rectifying compositions on trays 0..feed, the equilibrium vapour on trays 1..feed, zero vapour on every other tray, and zero liquid on the trays below the feed |
| Distillation.StrippingSweep | distillation_column_app.py:17-20 | The second loop: it succeeds exactly when the reference stripping recursion does, and then yields the full profile. Its rewrite of `y[feed]` agrees with the first loop's value |
| Distillation.DistillationColumn | distillation_column_app.py:6-22 | `N < -1` fails when the arrays are allocated, and a feed tray past `N` fails when `zF` is stored. Otherwise the call succeeds exactly when no sweep meets a zero divisor, and the result is the profile the reference recursions describe |

## Left out

- The Streamlit and matplotlib presentation is not modelled: sliders, layout, markdown, plots, session state, image loading and the display-only values derived from the histories. It is user-interface glue with no computation the simulators depend on.
- `pid_web_app.py` and `python pid_sim.py` are not part of this model. Their simulation is delegated to the `control` library, whose code is not available here.
- IEEE-754 rounding is not modelled: values are exact reals. `1e-6` is the exact real `0.000001`.
- Distillation.DistillationColumn: a zero divisor in a sweep is reported as `NonFinite` instead of continuing with numpy's `inf`/`nan`, because reals have no such values. Beyond that fault the model makes no claim about the arrays numpy would return.
- Distillation.DistillationColumn: the feed tray is a `nat`, so Python's negative indexing for a negative `feed_stage` is not modelled.
- ClosedLoop.Simulate: `sim_time` is an integer, so a fractional `sim_time` is not modelled. No slider sets it: every call site passes the default (100 at tank_pid_app.py:56, 200 at oven_pid_app.py:61 and heat_exchanger_pid_app.py:81). For a fractional value, `simulate_tank` and `simulate_heat_exchanger` would truncate it with `int(...)`, while `simulate_oven` calls `range(0, sim_time)` without `int(...)` (oven_pid_app.py:20) and would raise a `TypeError`.
- A negative `dt` is accepted by the Python code and by the model alike. Only a zero `dt` fails.
- No alternative heat-exchanger update rule is modelled. Only the algebraic outlet update exists in the code.
- Convergence and steady-state behaviour (settling near the setpoint) is not modelled. It depends on the tuning, and the code does not promise it.
- Pid.Update: the integral property over a whole run is stated separately, by `ClosedLoop.ControllerReplaysErrors` together with `Pid.FeedAccumulates` and `ClosedLoop.IntegralIsScaledErrorSum`, not in the tick's own contract.

## Behaviour worth knowing

With the default inputs (α = 2.5, R = 2.5, N = 10, feed tray 5), one might
expect the top tray to be richer than the feed. The code does not do this.
Its rectifying update divides the equilibrium vapour by `R + 1`, so whenever
`1 <= α <= R + 1` and `zF` lies in [0, 1] each tray is no richer than the one
below it.
`Distillation.TopNotRicherThanFeed` proves this for all such inputs: for the
defaults, the top tray is no richer than `zF = 0.5`. The model follows
the code.

=== FILE: closed_loop.dfy ===
/** The fixed-step closed loop the tank, oven and heat-exchanger simulators
    share: each tick measures the error against the setpoint, runs the PID
    kernel, saturates its output into the process's actuator range, advances
    the process by one step and records the post-update output. */
module ClosedLoop {
  import Pid
  import opened Plants
  import opened Results

  datatype Config = Config(plant: Plant, gains: Pid.Gains, setpoint: real, dt: real)

  /** Everything that changes from tick to tick: the process output and the
      controller's memory. */
  datatype LoopState = LoopState(value: real, pid: Pid.State)

  /** What one tick computes: the error it saw, the derivative term, the raw
      controller output, the saturated actuator value and the state after it. */
  datatype Tick = Tick(error: real, derivative: real, control: real, actuation: real, next: LoopState)

  /** The recorded run: the tick indices and the process output after each tick. */
  datatype History = History(time: seq<int>, values: seq<real>)

  /** The state before the first tick: the process at rest, the integral
      zero and the previous error seeded with the error the first tick will see. */
  function Init(cfg: Config): (s: LoopState)
    ensures s.value == Initial(cfg.plant)
    ensures s.pid.integral == 0.0
    ensures s.pid.prevError == cfg.setpoint - s.value
  {
    var v := Initial(cfg.plant);
    LoopState(v, Pid.State(0.0, cfg.setpoint - v))
  }

  /** One tick of the loop: the error is measured against the output the
      tick starts from, the controller remembers that error, the actuator
      sees the saturated controller output, and the process advances under
      that actuation alone. */
  function Step(cfg: Config, s: LoopState): (t: Tick)
    requires WellPosed(cfg.plant, cfg.dt)
    ensures t.error == cfg.setpoint - s.value
    ensures t.next.pid == Pid.Accumulate(s.pid, t.error, cfg.dt)
    ensures t.derivative == 0.0 <==> t.error == s.pid.prevError
    ensures t.derivative == Pid.Update(cfg.gains, s.pid, t.error, cfg.dt).derivative
    ensures t.control == Pid.Update(cfg.gains, s.pid, t.error, cfg.dt).control
    ensures t.actuation == Actuate(cfg.plant, t.control)
    ensures t.next.value == Advance(cfg.plant, cfg.dt, s.value, t.actuation)
  {
    var e := cfg.setpoint - s.value;
    var o := Pid.Update(cfg.gains, s.pid, e, cfg.dt);
    var u := Actuate(cfg.plant, o.control);
    Tick(e, o.derivative, o.control, u, LoopState(Advance(cfg.plant, cfg.dt, s.value, u), o.next))
  }

  /** The state after `k` ticks. Before any tick it is the rest state, and
      a tank level is never negative after any number of ticks. */
  function Run(cfg: Config, k: nat): (s: LoopState)
    requires WellPosed(cfg.plant, cfg.dt)
    ensures k == 0 ==> s == Init(cfg)
    ensures cfg.plant.Tank? ==> 0.0 <= s.value
  {
    if k == 0 then Init(cfg) else Step(cfg, Run(cfg, k - 1)).next
  }

  /** The errors the first `k` ticks see, in order. */
  function Errors(cfg: Config, k: nat): (es: seq<real>)
    requires WellPosed(cfg.plant, cfg.dt)
    ensures |es| == k
  {
    if k == 0 then [] else Errors(cfg, k - 1) + [cfg.setpoint - Run(cfg, k - 1).value]
  }

  /** The `j`-th recorded error is the setpoint minus the process output the
      `j`-th tick started from. */
  lemma {:induction false} ErrorsAreSetpointGaps(cfg: Config, k: nat, j: nat)
    requires WellPosed(cfg.plant, cfg.dt)
    requires j < k
    ensures Errors(cfg, k)[j] == cfg.setpoint - Run(cfg, j).value
  {
    if j < k - 1 {
      ErrorsAreSetpointGaps(cfg, k - 1, j);
    }
  }

  /** The first tick has no derivative kick: its derivative term is zero and
      its output is the proportional and integral parts alone. */
  lemma FirstTickIsSpikeFree(cfg: Config)
    requires WellPosed(cfg.plant, cfg.dt)
    ensures Step(cfg, Init(cfg)).error == cfg.setpoint - Initial(cfg.plant)
    ensures Step(cfg, Init(cfg)).derivative == 0.0
    ensures Step(cfg, Init(cfg)).control
         == cfg.gains.kp * Step(cfg, Init(cfg)).error + cfg.gains.ki * Step(cfg, Init(cfg)).error * cfg.dt
  {
  }

  /** Number of ticks `range(0, simTime)` yields. */
  function Horizon(simTime: int): nat
  {
    if simTime < 0 then 0 else simTime
  }

  /** The controller state after `k` ticks is the PID kernel fed, in order,
      exactly the errors those ticks saw: the loop adds no memory of its own. */
  lemma {:induction false} ControllerReplaysErrors(cfg: Config, k: nat)
    requires WellPosed(cfg.plant, cfg.dt)
    ensures Run(cfg, k).pid == Pid.Feed(Init(cfg).pid, Errors(cfg, k), cfg.dt)
  {
    if k > 0 {
      ControllerReplaysErrors(cfg, k - 1);
      var es := Errors(cfg, k);
      var prev := Run(cfg, k - 1);
      var e := cfg.setpoint - prev.value;
      assert es == Errors(cfg, k - 1) + [e];
      assert es[..k - 1] == Errors(cfg, k - 1);
      assert Pid.Feed(Init(cfg).pid, es, cfg.dt) == Pid.Accumulate(prev.pid, e, cfg.dt);
      assert Run(cfg, k) == Step(cfg, prev).next;
    }
  }

  /** After `k` ticks the integral is `dt` times the sum of the errors those
      ticks saw. */
  lemma IntegralIsScaledErrorSum(cfg: Config, k: nat)
    requires WellPosed(cfg.plant, cfg.dt)
    ensures Run(cfg, k).pid.integral == Pid.RectangleIntegral(Errors(cfg, k), cfg.dt)
  {
    ControllerReplaysErrors(cfg, k);
    Pid.FeedFromRest(Init(cfg).pid, Errors(cfg, k), cfg.dt);
  }

  /** After `k > 0` ticks the remembered error is the one the last tick saw. */
  lemma PrevErrorIsLastError(cfg: Config, k: nat)
    requires WellPosed(cfg.plant, cfg.dt)
    requires 0 < k
    ensures Run(cfg, k).pid.prevError == cfg.setpoint - Run(cfg, k - 1).value
  {
    ControllerReplaysErrors(cfg, k);
    Pid.FeedAccumulates(Init(cfg).pid, Errors(cfg, k), cfg.dt);
    ErrorsAreSetpointGaps(cfg, k, k - 1);
  }

  /** The driver loop. A tick divides by `dt` and by the process's own
      divisor, so a run of at least one tick with a zero divisor stops with
      `ZeroDivision`; a run of no ticks returns empty histories. */
  method Simulate(cfg: Config, simTime: int) returns (r: Result<History>)
    ensures r.Err? <==> 1 <= simTime && !WellPosed(cfg.plant, cfg.dt)
    ensures r.Err? ==> r.fault == ZeroDivision
    ensures r.Ok? ==> |r.value.time| == Horizon(simTime) && |r.value.values| == Horizon(simTime)
    ensures r.Ok? ==> forall k :: 0 <= k < |r.value.time| ==> r.value.time[k] == k
    ensures r.Ok? ==> forall k :: 0 <= k < |r.value.values| ==>
      WellPosed(cfg.plant, cfg.dt) && r.value.values[k] == Run(cfg, k + 1).value
  {
    var s := Init(cfg);
    var time: seq<int> := [];
    var values: seq<real> := [];
    var t := 0;
    while t < simTime
      invariant 0 <= t <= Horizon(simTime)
      invariant |time| == t && |values| == t
      invariant 0 < t ==> WellPosed(cfg.plant, cfg.dt)
      invariant WellPosed(cfg.plant, cfg.dt) ==> s == Run(cfg, t)
      invariant forall k :: 0 <= k < t ==> time[k] == k
      invariant forall k :: 0 <= k < t ==> WellPosed(cfg.plant, cfg.dt) && values[k] == Run(cfg, k + 1).value
    {
      if !WellPosed(cfg.plant, cfg.dt) {
        return Err(ZeroDivision);
      }
      var tick := Step(cfg, s);
      s := tick.next;
      time := time + [t];
      values := values + [s.value];
      t := t + 1;
    }
    r := Ok(History(time, values));
  }
}

=== FILE: distillation.dfy ===
/** The tray-by-tray composition profile of a distillation column: starting
    from the feed composition on the feed tray, the rectifying section is
    walked upward (trays with smaller index) and the stripping section
    downward, each tray's vapour composition following from its liquid
    composition by the constant-relative-volatility equilibrium. There is no
    controller and no time; the profile is computed once. */
module Distillation {
  import opened Saturation
  import opened Results

  /** The column's inputs: relative volatility, feed composition, reflux
      ratio, index of the bottom tray (`N`) and index of the feed tray. */
  datatype Column = Column(alpha: real, zF: real, reflux: real, n: int, feed: nat)

  /** Liquid compositions `x` and vapour compositions `y`, one per tray 0..N. */
  datatype Profile = Profile(x: seq<real>, y: seq<real>)

  function Denominator(alpha: real, x: real): real
  {
    1.0 + (alpha - 1.0) * x
  }

  /** The vapour composition in equilibrium with liquid composition `x`. */
  function Equilibrium(alpha: real, x: real): (y: real)
    requires Denominator(alpha, x) != 0.0
    ensures y * Denominator(alpha, x) == alpha * x
    ensures x == 0.0 ==> y == 0.0
    ensures x == 1.0 ==> y == 1.0
    ensures alpha == 1.0 ==> y == x
  {
    alpha * x / Denominator(alpha, x)
  }

  /** For positive volatility and a composition in [0, 1] the equilibrium
      divisor is `(1 - x) + alpha * x`, a sum of non-negative terms that are
      never both zero, and the vapour composition lies in [0, 1] as well. */
  lemma EquilibriumInUnitInterval(alpha: real, x: real)
    requires 0.0 < alpha && 0.0 <= x <= 1.0
    ensures 0.0 < Denominator(alpha, x)
    ensures 0.0 <= Equilibrium(alpha, x) <= 1.0
  {
    var d := Denominator(alpha, x);
    assert d == (1.0 - x) + alpha * x;
    MulNonNegative(alpha, x);
    if x < 1.0 {
      assert 0.0 < 1.0 - x;
    } else {
      assert alpha * x == alpha;
    }
    assert 0.0 < d;
    QuotientInUnitInterval(alpha * x, d);
  }

  /** For volatility at least one the vapour is never richer than `alpha`
      times the liquid. */
  lemma EquilibriumBelowLine(alpha: real, x: real)
    requires 1.0 <= alpha && 0.0 <= x <= 1.0
    ensures 0.0 < Denominator(alpha, x)
    ensures Equilibrium(alpha, x) <= alpha * x
  {
    var d := Denominator(alpha, x);
    MulNonNegative(alpha - 1.0, x);
    assert 1.0 <= d;
    MulNonNegative(alpha, x);
    MulNonNegative(d - 1.0, alpha * x);
    assert alpha * x <= d * (alpha * x);
    DivideBound(alpha * x, d, alpha * x);
  }

  lemma MulNonNegative(a: real, b: real)
    requires 0.0 <= a && 0.0 <= b
    ensures 0.0 <= a * b
  {
  }

  lemma MulMonotone(a: real, b: real, v: real)
    requires a <= b && 0.0 <= v
    ensures a * v <= b * v
  {
    MulNonNegative(b - a, v);
    assert (b - a) * v == b * v - a * v;
  }

  lemma QuotientInUnitInterval(a: real, d: real)
    requires 0.0 < d && 0.0 <= a <= d
    ensures 0.0 <= a / d <= 1.0
  {
  }

  /** Dividing by a positive `m` undoes an upper bound scaled by `m`. */
  lemma DivideBound(y: real, m: real, v: real)
    requires 0.0 < m && y <= m * v
    ensures y / m <= v
  {
  }

  /** Liquid composition on rectifying tray `i` (0 <= i <= feed), or the fault
      a zero divisor on the way up from the feed tray would cause. */
  function RectX(c: Column, i: nat): Result<real>
    requires i <= c.feed
    decreases c.feed - i
  {
    if i == c.feed then Ok(c.zF)
    else
      match RectX(c, i + 1)
      case Err(f) => Err(f)
      case Ok(v) =>
        if Denominator(c.alpha, v) == 0.0 || c.reflux + 1.0 == 0.0 then Err(NonFinite)
        else Ok(RectNext(c, v))
  }

  /** The rectifying operating line: the vapour rising from liquid `v` on the
      tray below, divided by `R + 1`. */
  function RectNext(c: Column, v: real): real
    requires Denominator(c.alpha, v) != 0.0 && c.reflux + 1.0 != 0.0
  {
    RectifyingLine(c.reflux, Equilibrium(c.alpha, v))
  }

  /** The rectifying operating line solved for the liquid leaving a tray:
      the vapour `y` rising into it divided by `R + 1`. */
  function RectifyingLine(reflux: real, y: real): real
    requires reflux + 1.0 != 0.0
  {
    y / (reflux + 1.0)
  }

  /** Liquid composition on stripping tray `j` (feed <= j), or the fault a zero
      divisor on the way down from the feed tray would cause. */
  function StripX(c: Column, j: int): Result<real>
    requires c.feed <= j
    decreases j - c.feed
  {
    if j == c.feed then Ok(c.zF)
    else
      match StripX(c, j - 1)
      case Err(f) => Err(f)
      case Ok(v) =>
        if Denominator(c.alpha, v) == 0.0 then Err(NonFinite)
        else Ok(StripNext(c, v))
  }

  /** The stripping operating line from the liquid composition `v` on the
      tray above, clamped to [0, 1]. */
  function StripNext(c: Column, v: real): (x: real)
    requires Denominator(c.alpha, v) != 0.0
    ensures 0.0 <= x <= 1.0
    ensures 0.0 <= StrippingLine(c.reflux, v, Equilibrium(c.alpha, v)) <= 1.0
         ==> x == StrippingLine(c.reflux, v, Equilibrium(c.alpha, v))
    ensures StrippingLine(c.reflux, v, Equilibrium(c.alpha, v)) <= 0.0 ==> x == 0.0
    ensures 1.0 <= StrippingLine(c.reflux, v, Equilibrium(c.alpha, v)) ==> x == 1.0
  {
    Clamp(0.0, 1.0, StrippingLine(c.reflux, v, Equilibrium(c.alpha, v)))
  }

  /** The stripping operating line `distillation_column` uses for the liquid on the
      next tray down, from the liquid `x` and vapour `y` of the tray above:
      `(R + 1) x - R y`. */
  function StrippingLine(reflux: real, x: real, y: real): real
  {
    (reflux + 1.0) * x - reflux * y
  }

  /** Whether the profile is computed without any zero divisor. */
  predicate Computable(c: Column)
    requires c.feed <= c.n
  {
    RectX(c, 0).Ok? && StripX(c, c.n).Ok?
  }

  /** Tray `i` has its vapour composition written by one of the two sweeps:
      the rectifying sweep writes trays 1..feed, the stripping sweep trays
      feed..N-1. */
  predicate VapourWritten(c: Column, i: int)
  {
    (1 <= i <= c.feed) || (c.feed <= i < c.n)
  }

  /** One step of the rectifying sweep, from tray `i + 1` to tray `i`. */
  lemma RectStep(c: Column, i: nat, v: real)
    requires i < c.feed && RectX(c, i + 1) == Ok(v)
    requires Denominator(c.alpha, v) != 0.0 && c.reflux + 1.0 != 0.0
    ensures RectX(c, i) == Ok(RectNext(c, v))
  {
  }

  /** One step of the stripping sweep, from tray `j - 1` to tray `j`. */
  lemma StripStep(c: Column, j: int, v: real)
    requires c.feed < j && StripX(c, j - 1) == Ok(v)
    requires Denominator(c.alpha, v) != 0.0
    ensures StripX(c, j) == Ok(StripNext(c, v))
  {
  }

  /** A tray that computes brings every tray between it and the feed tray. */
  lemma {:induction false} RectOkAbove(c: Column, i: nat, j: nat)
    requires i <= j <= c.feed
    requires RectX(c, i).Ok?
    ensures RectX(c, j).Ok?
    decreases j - i
  {
    if i < j {
      RectOkAbove(c, i + 1, j);
    }
  }

  lemma {:induction false} StripOkAbove(c: Column, i: int, j: int)
    requires c.feed <= i <= j
    requires StripX(c, j).Ok?
    ensures StripX(c, i).Ok?
    decreases j - i
  {
    if i < j {
      StripOkAbove(c, i, j - 1);
    }
  }

  /** The stripping compositions below the feed tray are clamped into [0, 1]. */
  lemma StripBelowFeedInUnitInterval(c: Column, j: int)
    requires c.feed < j
    requires StripX(c, j).Ok?
    ensures 0.0 <= StripX(c, j).value <= 1.0
  {
  }

  /** One rectifying step keeps a composition in [0, 1] when the volatility
      is positive and the reflux ratio non-negative. */
  lemma RectNextInUnitInterval(c: Column, v: real)
    requires 0.0 < c.alpha && 0.0 <= c.reflux && 0.0 <= v <= 1.0
    ensures Denominator(c.alpha, v) != 0.0 && c.reflux + 1.0 != 0.0
    ensures 0.0 <= RectNext(c, v) <= 1.0
  {
    EquilibriumInUnitInterval(c.alpha, v);
    QuotientInUnitInterval(Equilibrium(c.alpha, v), c.reflux + 1.0);
  }

  /** When the volatility lies between one and `R + 1`, one rectifying step
      never makes the liquid richer: `alpha * v / (1 + (alpha - 1) v)` is at
      most `alpha * v`, which is at most `(R + 1) v`. */
  lemma RectNextNotRicher(c: Column, v: real)
    requires 1.0 <= c.alpha <= c.reflux + 1.0 && 0.0 <= v <= 1.0
    ensures Denominator(c.alpha, v) != 0.0 && c.reflux + 1.0 != 0.0
    ensures RectNext(c, v) <= v
  {
    EquilibriumBelowLine(c.alpha, v);
    MulMonotone(c.alpha, c.reflux + 1.0, v);
    DivideBound(Equilibrium(c.alpha, v), c.reflux + 1.0, v);
  }

  /** With positive volatility, non-negative reflux and a feed composition in
      [0, 1] (the domains the app's inputs allow), every rectifying tray
      computes and its composition stays in [0, 1]. */
  lemma {:induction false} RectInUnitInterval(c: Column, i: nat)
    requires 0.0 < c.alpha && 0.0 <= c.reflux && 0.0 <= c.zF <= 1.0
    requires i <= c.feed
    ensures RectX(c, i).Ok? && 0.0 <= RectX(c, i).value <= 1.0
    decreases c.feed - i
  {
    if i < c.feed {
      RectInUnitInterval(c, i + 1);
      var v := RectX(c, i + 1).value;
      RectNextInUnitInterval(c, v);
      RectStep(c, i, v);
    }
  }

  /** Under the same domains every stripping tray computes and stays in [0, 1]. */
  lemma {:induction false} StripInUnitInterval(c: Column, j: int)
    requires 0.0 < c.alpha && 0.0 <= c.zF <= 1.0
    requires c.feed <= j
    ensures StripX(c, j).Ok? && 0.0 <= StripX(c, j).value <= 1.0
    decreases j - c.feed
  {
    if c.feed < j {
      StripInUnitInterval(c, j - 1);
      var v := StripX(c, j - 1).value;
      EquilibriumInUnitInterval(c.alpha, v);
      StripStep(c, j, v);
      StripBelowFeedInUnitInterval(c, j);
    }
  }

  /** When the volatility does not exceed `R + 1`, the rectifying liquid gets
      no richer going up the column: each tray's composition is at most the
      one below it, so the top tray is never richer than the feed. */
  lemma {:induction false} RectLeanerUpward(c: Column, i: nat)
    requires 1.0 <= c.alpha <= c.reflux + 1.0 && 0.0 <= c.zF <= 1.0
    requires i < c.feed
    ensures RectX(c, i).Ok? && RectX(c, i + 1).Ok?
    ensures RectX(c, i).value <= RectX(c, i + 1).value
  {
    RectInUnitInterval(c, i + 1);
    var v := RectX(c, i + 1).value;
    RectNextNotRicher(c, v);
    RectStep(c, i, v);
  }

  lemma {:induction false} TopNotRicherThanFeed(c: Column, i: nat)
    requires 1.0 <= c.alpha <= c.reflux + 1.0 && 0.0 <= c.zF <= 1.0
    requires i <= c.feed
    ensures RectX(c, i).Ok? && RectX(c, i).value <= c.zF
    decreases c.feed - i
  {
    if i < c.feed {
      TopNotRicherThanFeed(c, i + 1);
      RectLeanerUpward(c, i);
    }
  }

  /** `p` is the profile the two sweeps produce for column `c`: one entry per
      tray, liquid compositions from the rectifying and stripping recurrences,
      and a vapour composition in equilibrium with the liquid on every tray a
      sweep visits and zero on the others. */
  predicate Describes(c: Column, p: Profile)
    requires c.feed <= c.n
  {
    && |p.x| == c.n + 1 && |p.y| == c.n + 1
    && (forall i :: 0 <= i <= c.feed ==> RectX(c, i) == Ok(p.x[i]))
    && (forall j :: c.feed <= j <= c.n ==> StripX(c, j) == Ok(p.x[j]))
    && (forall i :: 0 <= i <= c.n && VapourWritten(c, i) ==>
          Denominator(c.alpha, p.x[i]) != 0.0 && p.y[i] == Equilibrium(c.alpha, p.x[i]))
    && (forall i :: 0 <= i <= c.n && !VapourWritten(c, i) ==> p.y[i] == 0.0)
  }

  /** The sweeps' update equations hold between neighbouring trays: the feed
      tray keeps the feed composition, each rectifying tray's liquid is the
      vapour from the tray below divided by `R + 1`, each stripping tray's
      liquid is the clamped operating-line value from the tray above, and the
      two sweeps agree on the feed tray's vapour. */
  lemma {:induction false} ProfileRecurrences(c: Column, p: Profile)
    requires c.feed <= c.n && Describes(c, p)
    ensures p.x[c.feed] == c.zF
    ensures forall i :: 0 <= i < c.feed ==>
      c.reflux + 1.0 != 0.0 && p.x[i] == RectifyingLine(c.reflux, p.y[i + 1])
    ensures forall j :: c.feed < j <= c.n ==>
      p.x[j] == Clamp(0.0, 1.0, StrippingLine(c.reflux, p.x[j - 1], p.y[j - 1]))
    ensures 1 <= c.feed || c.feed < c.n ==>
      Denominator(c.alpha, c.zF) != 0.0 && p.y[c.feed] == Equilibrium(c.alpha, c.zF)
  {
    assert RectX(c, c.feed) == Ok(p.x[c.feed]);
    forall i | 0 <= i < c.feed
      ensures c.reflux + 1.0 != 0.0 && p.x[i] == RectifyingLine(c.reflux, p.y[i + 1])
    {
      assert RectX(c, i + 1) == Ok(p.x[i + 1]);
      assert RectX(c, i) == Ok(p.x[i]);
      assert c.reflux + 1.0 != 0.0;
      assert VapourWritten(c, i + 1);
      RectStep(c, i, p.x[i + 1]);
    }
    forall j | c.feed < j <= c.n
      ensures p.x[j] == Clamp(0.0, 1.0, StrippingLine(c.reflux, p.x[j - 1], p.y[j - 1]))
    {
      StripRecurrence(c, p, j);
    }
    if 1 <= c.feed || c.feed < c.n {
      assert VapourWritten(c, c.feed);
    }
  }

  /** The stripping half of `ProfileRecurrences`, for one tray. */
  lemma StripRecurrence(c: Column, p: Profile, j: int)
    requires c.feed <= c.n && Describes(c, p)
    requires c.feed < j <= c.n
    ensures p.x[j] == Clamp(0.0, 1.0, StrippingLine(c.reflux, p.x[j - 1], p.y[j - 1]))
  {
    assert StripX(c, j - 1) == Ok(p.x[j - 1]);
    assert StripX(c, j) == Ok(p.x[j]);
    assert VapourWritten(c, j - 1);
    StripTray(c, j, p.x[j - 1], p.y[j - 1], p.x[j]);
  }

  /** Tray `j`'s liquid from the liquid `v` and vapour `y` of tray `j - 1`. */
  lemma StripTray(c: Column, j: int, v: real, y: real, w: real)
    requires c.feed < j && StripX(c, j - 1) == Ok(v) && StripX(c, j) == Ok(w)
    requires Denominator(c.alpha, v) != 0.0 && y == Equilibrium(c.alpha, v)
    ensures w == Clamp(0.0, 1.0, StrippingLine(c.reflux, v, y))
  {
    StripStep(c, j, v);
    StripNextUnfold(c, v, y);
  }

  /** `StripNext` with the equilibrium vapour named `y`. */
  lemma StripNextUnfold(c: Column, v: real, y: real)
    requires Denominator(c.alpha, v) != 0.0 && y == Equilibrium(c.alpha, v)
    ensures StripNext(c, v) == Clamp(0.0, 1.0, StrippingLine(c.reflux, v, y))
  {
  }

  /** The top tray's vapour is never written when the feed is below it, nor
      the bottom tray's when the feed is above it; both stay at zero. */
  lemma EndVapoursUnwritten(c: Column, p: Profile)
    requires c.feed <= c.n && Describes(c, p)
    ensures 1 <= c.feed ==> p.y[0] == 0.0
    ensures c.feed < c.n ==> p.y[c.n] == 0.0
  {
    assert !VapourWritten(c, 0) || c.feed == 0;
    assert c.feed < c.n ==> !VapourWritten(c, c.n);
  }

  /** On the inputs the app allows (positive volatility, non-negative reflux,
      feed composition in [0, 1]) the sweeps meet no zero divisor and every
      composition of the profile lies in [0, 1]. */
  lemma ProfileInUnitInterval(c: Column, p: Profile)
    requires 0.0 < c.alpha && 0.0 <= c.reflux && 0.0 <= c.zF <= 1.0 && c.feed <= c.n
    ensures Computable(c)
    ensures Describes(c, p) ==> forall i :: 0 <= i <= c.n ==> 0.0 <= p.x[i] <= 1.0 && 0.0 <= p.y[i] <= 1.0
  {
    RectInUnitInterval(c, 0);
    StripInUnitInterval(c, c.n);
    if Describes(c, p) {
      forall i | 0 <= i <= c.n
        ensures 0.0 <= p.x[i] <= 1.0 && 0.0 <= p.y[i] <= 1.0
      {
        if i <= c.feed {
          RectInUnitInterval(c, i);
        } else {
          StripInUnitInterval(c, i);
        }
        if VapourWritten(c, i) {
          EquilibriumInUnitInterval(c.alpha, p.x[i]);
        }
      }
    }
  }

  /** The state after the rectifying sweep: one entry per tray, the
      rectifying liquid compositions on trays 0..feed, the equilibrium vapour
      on trays 1..feed and zero vapour elsewhere. */
  predicate Rectified(c: Column, p: Profile)
    requires c.feed <= c.n
  {
    && |p.x| == c.n + 1 && |p.y| == c.n + 1
    && (forall i :: 0 <= i <= c.feed ==> RectX(c, i) == Ok(p.x[i]))
    && (forall i :: 1 <= i <= c.feed ==>
          Denominator(c.alpha, p.x[i]) != 0.0 && p.y[i] == Equilibrium(c.alpha, p.x[i]))
    && (forall i :: 0 <= i <= c.n && !(1 <= i <= c.feed) ==> p.y[i] == 0.0)
  }

  /** The first loop of `distillation_column`: from the feed tray up to tray 1, store the
      equilibrium vapour and derive the liquid on the tray above. */
  method RectifyingSweep(c: Column) returns (r: Result<Profile>)
    requires c.feed <= c.n
    ensures r.Ok? <==> RectX(c, 0).Ok?
    ensures r.Err? ==> r.fault == NonFinite
    ensures r.Ok? ==> Rectified(c, r.value)
    ensures r.Ok? ==> forall k :: c.feed < k <= c.n ==> r.value.x[k] == 0.0
  {
    var x := seq(c.n + 1, _ => 0.0);
    var y := seq(c.n + 1, _ => 0.0);
    x := x[c.feed := c.zF];
    var i := c.feed;
    RectSweptStart(c, x, y);
    while i > 0
      invariant RectSwept(c, x, y, i)
    {
      assert RectX(c, i) == Ok(x[i]);
      if Denominator(c.alpha, x[i]) == 0.0 || c.reflux + 1.0 == 0.0 {
        assert RectX(c, i - 1).Err?;
        if RectX(c, 0).Ok? {
          RectOkAbove(c, 0, i - 1);
        }
        return Err(NonFinite);
      }
      RectSweptStep(c, x, y, i);
      y := y[i := Equilibrium(c.alpha, x[i])];
      x := x[i - 1 := RectNext(c, x[i])];
      i := i - 1;
    }
    r := Ok(Profile(x, y));
  }

  /** The state of the rectifying sweep once trays `i..feed` hold their
      liquid compositions: those are the compositions of `RectX`, the vapour
      is in equilibrium on trays `i + 1..feed` and zero elsewhere, and the
      liquid below the feed tray is still zero. */
  predicate RectSwept(c: Column, x: seq<real>, y: seq<real>, i: int)
  {
    && 0 <= i <= c.feed <= c.n
    && |x| == c.n + 1 && |y| == c.n + 1
    && (forall k :: i <= k <= c.feed ==> RectX(c, k) == Ok(x[k]))
    && (forall k :: i < k <= c.feed ==>
          Denominator(c.alpha, x[k]) != 0.0 && y[k] == Equilibrium(c.alpha, x[k]))
    && (forall k :: 0 <= k <= c.n && !(i < k <= c.feed) ==> y[k] == 0.0)
    && (forall k :: c.feed < k <= c.n ==> x[k] == 0.0)
  }

  lemma RectSweptStart(c: Column, x: seq<real>, y: seq<real>)
    requires c.feed <= c.n
    requires x == seq(c.n + 1, _ => 0.0)[c.feed := c.zF] && y == seq(c.n + 1, _ => 0.0)
    ensures RectSwept(c, x, y, c.feed)
  {
  }

  lemma RectSweptStep(c: Column, x: seq<real>, y: seq<real>, i: int)
    requires 0 < i && RectSwept(c, x, y, i)
    requires Denominator(c.alpha, x[i]) != 0.0 && c.reflux + 1.0 != 0.0
    ensures RectSwept(c, x[i - 1 := RectNext(c, x[i])], y[i := Equilibrium(c.alpha, x[i])], i - 1)
  {
    RectStep(c, i - 1, x[i]);
  }

  /** The state of the stripping sweep once trays `feed..j` hold their
      liquid compositions: the rectifying part is kept, the stripping
      compositions are those of `StripX`, and the vapour is in equilibrium on
      trays 1..feed and feed..j-1 and zero elsewhere. */
  predicate Swept(c: Column, x: seq<real>, y: seq<real>, j: int)
    requires c.feed <= j
  {
    && c.feed <= j <= c.n
    && |x| == c.n + 1 && |y| == c.n + 1
    && (forall k :: 0 <= k <= c.feed ==> RectX(c, k) == Ok(x[k]))
    && (forall k :: c.feed <= k <= j ==> StripX(c, k) == Ok(x[k]))
    && (forall k :: 0 <= k <= c.n && ((1 <= k <= c.feed) || (c.feed <= k < j)) ==>
          Denominator(c.alpha, x[k]) != 0.0 && y[k] == Equilibrium(c.alpha, x[k]))
    && (forall k :: 0 <= k <= c.n && !((1 <= k <= c.feed) || (c.feed <= k < j)) ==> y[k] == 0.0)
  }

  lemma SweptStart(c: Column, p: Profile)
    requires c.feed <= c.n && Rectified(c, p)
    ensures Swept(c, p.x, p.y, c.feed)
  {
    assert RectX(c, c.feed) == Ok(p.x[c.feed]);
  }

  lemma SweptStep(c: Column, x: seq<real>, y: seq<real>, j: int)
    requires c.feed <= j < c.n && Swept(c, x, y, j)
    requires Denominator(c.alpha, x[j]) != 0.0
    ensures Swept(c, x[j + 1 := StripNext(c, x[j])], y[j := Equilibrium(c.alpha, x[j])], j + 1)
  {
    assert StripX(c, (j + 1) - 1) == Ok(x[j]);
    StripStep(c, j + 1, x[j]);
  }

  lemma SweptDescribes(c: Column, x: seq<real>, y: seq<real>)
    requires c.feed <= c.n && Swept(c, x, y, c.n)
    ensures Describes(c, Profile(x, y))
  {
  }

  /** The second loop of `distillation_column`: from the feed tray down to tray N - 1,
      store the equilibrium vapour and derive the liquid on the tray below
      from the stripping line, clamped to [0, 1]. */
  method StrippingSweep(c: Column, p: Profile) returns (r: Result<Profile>)
    requires c.feed <= c.n && Rectified(c, p)
    ensures r.Ok? <==> StripX(c, c.n).Ok?
    ensures r.Err? ==> r.fault == NonFinite
    ensures r.Ok? ==> Describes(c, r.value)
    ensures r.Ok? && 1 <= c.feed ==> r.value.y[c.feed] == p.y[c.feed]
  {
    var x := p.x;
    var y := p.y;
    var j := c.feed;
    SweptStart(c, p);
    while j < c.n
      invariant c.feed <= j && Swept(c, x, y, j)
      invariant 1 <= c.feed ==> y[c.feed] == p.y[c.feed]
      decreases c.n - j
    {
      assert StripX(c, j) == Ok(x[j]);
      if Denominator(c.alpha, x[j]) == 0.0 {
        assert StripX(c, j + 1).Err?;
        if StripX(c, c.n).Ok? {
          StripOkAbove(c, j + 1, c.n);
        }
        return Err(NonFinite);
      }
      SweptStep(c, x, y, j);
      y := y[j := Equilibrium(c.alpha, x[j])];
      x := x[j + 1 := StripNext(c, x[j])];
      j := j + 1;
    }
    SweptDescribes(c, x, y);
    r := Ok(Profile(x, y));
  }

  /** The whole profile computation, as `distillation_column` writes it. `N < -1`
      fails when the arrays are allocated, a feed tray past `N` fails when the
      feed composition is stored, and a zero divisor in a sweep is reported
      as `NonFinite`. */
  method DistillationColumn(alpha: real, zF: real, reflux: real, n: int, feed: nat) returns (r: Result<Profile>)
    ensures n < -1 ==> r == Err(NegativeDimension)
    ensures -1 <= n < feed ==> r == Err(IndexOutOfRange)
    ensures feed <= n ==> (r.Ok? <==> Computable(Column(alpha, zF, reflux, n, feed)))
    ensures feed <= n && r.Err? ==> r.fault == NonFinite
    ensures r.Ok? ==> feed <= n && Describes(Column(alpha, zF, reflux, n, feed), r.value)
  {
    var c := Column(alpha, zF, reflux, n, feed);
    if n + 1 < 0 {
      return Err(NegativeDimension);
    }
    if feed > n {
      return Err(IndexOutOfRange);
    }
    var rect := RectifyingSweep(c);
    if rect.Err? {
      return rect;
    }
    r := StrippingSweep(c, rect.value);
  }
}

=== FILE: heat_exchanger_app.dfy ===
/** The heat-exchanger simulator: the PID output is added to a base UA, the
    sum is clamped to [100, 2000], and the outlet temperature follows
    algebraically from the heat duty. Defaults of `simulate_heat_exchanger`:
    200 ticks, dt 1.0. */
module HeatExchangerApp {
  import Pid
  import opened Saturation
  import opened Plants
  import opened Results
  import opened ClosedLoop

  function ExchangerConfig(kp: real, ki: real, kd: real, tIn: real, tCool: real, uaBase: real,
                           cp: real, mDot: real, tSet: real, dt: real): Config
  {
    Config(HeatExchanger(tIn, tCool, uaBase, cp, mDot), Pid.Gains(kp, ki, kd), tSet, dt)
  }

  /** The whole run: one recorded outlet temperature per tick, each the value
      after that tick; with coolant as hot as the inlet every recorded value
      is the inlet temperature. A run of at least one tick with `dt == 0` or
      `m_dot * Cp + 1e-6 == 0` stops with a division by zero. */
  method SimulateHeatExchanger(kp: real, ki: real, kd: real, tIn: real, tCool: real, uaBase: real,
                               cp: real, mDot: real, tSet: real, simTime: int := 200, dt: real := 1.0)
    returns (r: Result<History>)
    ensures r.Err? <==> 1 <= simTime && (dt == 0.0 || mDot * cp + FlowGuard == 0.0)
    ensures r.Err? ==> r.fault == ZeroDivision
    ensures r.Ok? ==> |r.value.time| == Horizon(simTime) && |r.value.values| == Horizon(simTime)
    ensures r.Ok? ==> forall k :: 0 <= k < |r.value.time| ==> r.value.time[k] == k
    ensures r.Ok? && tIn == tCool ==> forall k :: 0 <= k < |r.value.values| ==> r.value.values[k] == tIn
    ensures r.Ok? ==> forall k :: 0 <= k < |r.value.values| ==>
      dt != 0.0 && mDot * cp + FlowGuard != 0.0 &&
      r.value.values[k] == Run(ExchangerConfig(kp, ki, kd, tIn, tCool, uaBase, cp, mDot, tSet, dt), k + 1).value
  {
    var cfg := ExchangerConfig(kp, ki, kd, tIn, tCool, uaBase, cp, mDot, tSet, dt);
    r := Simulate(cfg, simTime);
    if r.Ok? && tIn == tCool {
      forall k | 0 <= k < |r.value.values|
        ensures r.value.values[k] == tIn
      {
        PassesThroughWhenCoolantMatches(cfg, k + 1);
      }
    }
  }

  /** One tick written out as the loop body of `simulate_heat_exchanger`
      computes it, against the model's composition of PID update, UA clamp
      and outlet update. */
  lemma ExchangerTickIsLoopBody(cfg: Config, s: LoopState)
    requires cfg.plant.HeatExchanger? && WellPosed(cfg.plant, cfg.dt)
    ensures
      var p := cfg.plant;
      var error := cfg.setpoint - s.value;
      var integral := s.pid.integral + error * cfg.dt;
      var derivative := (error - s.pid.prevError) / cfg.dt;
      var control := cfg.gains.kp * error + cfg.gains.ki * integral + cfg.gains.kd * derivative;
      var ua := Max(UaMin, Min(UaMax, p.uaBase + control));
      var q := ua * (s.value - p.tCool);
      var deltaT := q / (p.mDot * p.cp + FlowGuard);
      Step(cfg, s) == Tick(error, derivative, control, ua, LoopState(p.tIn - deltaT, Pid.State(integral, error)))
  {
    ExchangerTickController(cfg, s);
    ExchangerTickProcess(cfg, s);
  }

  /** The controller half of `ExchangerTickIsLoopBody`: error, derivative,
      output and new memory. */
  lemma ExchangerTickController(cfg: Config, s: LoopState)
    requires cfg.plant.HeatExchanger? && WellPosed(cfg.plant, cfg.dt)
    ensures
      var error := cfg.setpoint - s.value;
      var integral := s.pid.integral + error * cfg.dt;
      var derivative := (error - s.pid.prevError) / cfg.dt;
      && Step(cfg, s).error == error
      && Step(cfg, s).derivative == derivative
      && Step(cfg, s).control == cfg.gains.kp * error + cfg.gains.ki * integral + cfg.gains.kd * derivative
      && Step(cfg, s).next.pid == Pid.State(integral, error)
  {
  }

  /** The process half of `ExchangerTickIsLoopBody`: clamped UA and new
      outlet temperature. */
  lemma ExchangerTickProcess(cfg: Config, s: LoopState)
    requires cfg.plant.HeatExchanger? && WellPosed(cfg.plant, cfg.dt)
    ensures
      var p := cfg.plant;
      var ua := Max(UaMin, Min(UaMax, p.uaBase + Step(cfg, s).control));
      && Step(cfg, s).actuation == ua
      && Step(cfg, s).next.value == p.tIn - ua * (s.value - p.tCool) / (p.mDot * p.cp + FlowGuard)
  {
  }


  /** Each tick uses an effective UA inside [100, 2000], and when the outlet
      it starts from is no colder than the coolant (and `m_dot * Cp >= 0`)
      the outlet it produces is no hotter than the inlet. */
  lemma TickBounds(cfg: Config, s: LoopState)
    requires cfg.plant.HeatExchanger? && WellPosed(cfg.plant, cfg.dt)
    ensures UaMin <= Step(cfg, s).actuation <= UaMax
    ensures 0.0 <= cfg.plant.mDot * cfg.plant.cp && cfg.plant.tCool <= s.value ==>
      Step(cfg, s).next.value <= cfg.plant.tIn
  {
  }

  /** With the coolant at the inlet temperature no heat moves: the outlet
      starts at the inlet temperature and every tick leaves it there. */
  lemma {:induction false} PassesThroughWhenCoolantMatches(cfg: Config, k: nat)
    requires cfg.plant.HeatExchanger? && WellPosed(cfg.plant, cfg.dt)
    requires cfg.plant.tIn == cfg.plant.tCool
    ensures Run(cfg, k).value == cfg.plant.tIn
  {
    if k > 0 {
      PassesThroughWhenCoolantMatches(cfg, k - 1);
      var prev := Run(cfg, k - 1);
      assert Run(cfg, k) == Step(cfg, prev).next;
    }
  }
}

=== FILE: oven_app.dfy ===
/** The oven temperature simulator: PID-driven heater power into a thermal
    mass losing heat to a 25-degree ambient. Defaults of `simulate_oven`:
    setpoint 200, 200 ticks, dt 1.0. */
module OvenApp {
  import Pid
  import opened Saturation
  import opened Plants
  import opened Results
  import opened ClosedLoop

  function OvenConfig(kp: real, ki: real, kd: real, tSet: real, dt: real): Config
  {
    Config(Oven, Pid.Gains(kp, ki, kd), tSet, dt)
  }

  /** The whole run: one recorded temperature per tick, each the temperature
      after that tick; with the setpoint at ambient every recorded temperature
      is ambient. A run of at least one tick with `dt == 0` stops with a
      division by zero. */
  method SimulateOven(kp: real, ki: real, kd: real, tSet: real := 200.0, simTime: int := 200, dt: real := 1.0)
    returns (r: Result<History>)
    ensures r.Err? <==> 1 <= simTime && dt == 0.0
    ensures r.Err? ==> r.fault == ZeroDivision
    ensures r.Ok? ==> |r.value.time| == Horizon(simTime) && |r.value.values| == Horizon(simTime)
    ensures r.Ok? ==> forall k :: 0 <= k < |r.value.time| ==> r.value.time[k] == k
    ensures r.Ok? && tSet == AmbientTemp ==> forall k :: 0 <= k < |r.value.values| ==> r.value.values[k] == AmbientTemp
    ensures r.Ok? ==> forall k :: 0 <= k < |r.value.values| ==>
      dt != 0.0 && r.value.values[k] == Run(OvenConfig(kp, ki, kd, tSet, dt), k + 1).value
  {
    var cfg := OvenConfig(kp, ki, kd, tSet, dt);
    r := Simulate(cfg, simTime);
    if r.Ok? && tSet == AmbientTemp {
      forall k | 0 <= k < |r.value.values|
        ensures r.value.values[k] == AmbientTemp
      {
        HoldsAmbient(cfg, k + 1);
      }
    }
  }

  /** One tick written out as the loop body of `simulate_oven` computes it, against the
      model's composition of PID update, power clamp and thermal balance. */
  lemma OvenTickIsLoopBody(cfg: Config, s: LoopState)
    requires cfg.plant.Oven? && WellPosed(cfg.plant, cfg.dt)
    ensures
      var error := cfg.setpoint - s.value;
      var integral := s.pid.integral + error * cfg.dt;
      var derivative := (error - s.pid.prevError) / cfg.dt;
      var control := cfg.gains.kp * error + cfg.gains.ki * integral + cfg.gains.kd * derivative;
      var power := Max(0.0, Min(PowerMax, control));
      var heatLoss := HeatLossCoeff * (s.value - AmbientTemp);
      var t := s.value + (power - heatLoss) * cfg.dt / HeatCapacity;
      Step(cfg, s) == Tick(error, derivative, control, power, LoopState(t, Pid.State(integral, error)))
  {
    OvenTickController(cfg, s);
    OvenTickProcess(cfg, s);
  }

  /** The controller half of `OvenTickIsLoopBody`: error, derivative, output
      and new memory. */
  lemma OvenTickController(cfg: Config, s: LoopState)
    requires cfg.plant.Oven? && WellPosed(cfg.plant, cfg.dt)
    ensures
      var error := cfg.setpoint - s.value;
      var integral := s.pid.integral + error * cfg.dt;
      var derivative := (error - s.pid.prevError) / cfg.dt;
      && Step(cfg, s).error == error
      && Step(cfg, s).derivative == derivative
      && Step(cfg, s).control == cfg.gains.kp * error + cfg.gains.ki * integral + cfg.gains.kd * derivative
      && Step(cfg, s).next.pid == Pid.State(integral, error)
  {
  }

  /** The process half of `OvenTickIsLoopBody`: clamped power and new
      temperature. */
  lemma OvenTickProcess(cfg: Config, s: LoopState)
    requires cfg.plant.Oven? && WellPosed(cfg.plant, cfg.dt)
    ensures
      var power := Max(0.0, Min(PowerMax, Step(cfg, s).control));
      && Step(cfg, s).actuation == power
      && Step(cfg, s).next.value
         == s.value + (power - HeatLossCoeff * (s.value - AmbientTemp)) * cfg.dt / HeatCapacity
  {
  }


  /** Every tick applies a heater power in [0, PowerMax]. */
  lemma PowerWithinLimits(cfg: Config, s: LoopState)
    requires cfg.plant.Oven? && WellPosed(cfg.plant, cfg.dt)
    ensures 0.0 <= Step(cfg, s).actuation <= PowerMax
  {
  }

  /** At ambient, with no error, no integral and no remembered error, a tick
      changes nothing. */
  lemma AmbientTickIsFixed(cfg: Config)
    requires cfg.plant.Oven? && WellPosed(cfg.plant, cfg.dt)
    requires cfg.setpoint == AmbientTemp
    ensures Step(cfg, LoopState(AmbientTemp, Pid.State(0.0, 0.0))).next == LoopState(AmbientTemp, Pid.State(0.0, 0.0))
    ensures Step(cfg, LoopState(AmbientTemp, Pid.State(0.0, 0.0))).actuation == 0.0
  {
  }

  /** With the setpoint at ambient the oven never heats: the error, integral,
      remembered error and temperature deviation all stay zero for ever. */
  lemma {:induction false} HoldsAmbient(cfg: Config, k: nat)
    requires cfg.plant.Oven? && WellPosed(cfg.plant, cfg.dt)
    requires cfg.setpoint == AmbientTemp
    ensures Run(cfg, k) == LoopState(AmbientTemp, Pid.State(0.0, 0.0))
  {
    if k > 0 {
      HoldsAmbient(cfg, k - 1);
      AmbientTickIsFixed(cfg);
      assert Run(cfg, k) == Step(cfg, Run(cfg, k - 1)).next;
    }
  }
}

=== FILE: pid.dfy ===
/** The discrete PID kernel the tank, oven and heat-exchanger simulators share:
    the integral accumulates `error * dt`, the derivative is the backward
    difference of consecutive errors, and the previous error is remembered for
    the next tick. There is no saturation here; each simulator clamps the
    output to its own actuator range. */
module Pid {

  datatype Gains = Gains(kp: real, ki: real, kd: real)

  /** The controller's memory between ticks. */
  datatype State = State(integral: real, prevError: real)

  /** What one tick of the controller yields. */
  datatype Output = Output(derivative: real, control: real, next: State)

  /** One controller tick on error sample `e`. */
  function Update(g: Gains, s: State, e: real, dt: real): (o: Output)
    requires dt != 0.0
    ensures o.next == Accumulate(s, e, dt)
    ensures o.derivative * dt == e - s.prevError
    ensures o.derivative == 0.0 <==> e == s.prevError
    ensures o.control == g.kp * e + g.ki * o.next.integral + g.kd * o.derivative
  {
    var integral := s.integral + e * dt;
    var derivative := (e - s.prevError) / dt;
    Output(derivative, g.kp * e + g.ki * integral + g.kd * derivative, State(integral, e))
  }

  /** The controller's memory after seeing error `e`: the integral grows by
      `e * dt` and `e` becomes the remembered error. The gains play no part. */
  function Accumulate(s: State, e: real, dt: real): (next: State)
    ensures next.integral - s.integral == e * dt
    ensures next.prevError == e
  {
    State(s.integral + e * dt, e)
  }

  /** Sum of a sequence of errors, added from the front. */
  function Sum(es: seq<real>): real
  {
    if |es| == 0 then 0.0 else Sum(es[..|es| - 1]) + es[|es| - 1]
  }

  /** The controller's memory after it has seen the errors `es` in order. */
  function Feed(s: State, es: seq<real>, dt: real): State
  {
    if |es| == 0 then s else Accumulate(Feed(s, es[..|es| - 1], dt), es[|es| - 1], dt)
  }

  /** After any run of ticks the integral has grown by `dt` times the sum of
      the errors seen, and the remembered error is the last one. */
  lemma {:induction false} FeedAccumulates(s: State, es: seq<real>, dt: real)
    ensures Feed(s, es, dt).integral == s.integral + dt * Sum(es)
    ensures |es| > 0 ==> Feed(s, es, dt).prevError == es[|es| - 1]
    ensures |es| == 0 ==> Feed(s, es, dt) == s
  {
    if |es| > 0 {
      var front := es[..|es| - 1];
      var e := es[|es| - 1];
      FeedAccumulates(s, front, dt);
      assert Feed(s, es, dt) == Accumulate(Feed(s, front, dt), e, dt);
      assert Sum(es) == Sum(front) + e;
      ScaledSumStep(s.integral, dt, Sum(front), e, Sum(es));
    }
  }

  lemma ScaledSumStep(start: real, dt: real, total: real, e: real, sum: real)
    requires sum == total + e
    ensures (start + dt * total) + e * dt == start + dt * sum
  {
  }

  /** The rectangle-rule integral of the error samples `es` taken `dt` apart. */
  function RectangleIntegral(es: seq<real>, dt: real): real
  {
    dt * Sum(es)
  }

  /** Started from rest, the integral is the rectangle-rule integral of the
      errors fed. */
  lemma FeedFromRest(s: State, es: seq<real>, dt: real)
    requires s.integral == 0.0
    ensures Feed(s, es, dt).integral == RectangleIntegral(es, dt)
  {
    FeedAccumulates(s, es, dt);
  }
}

=== FILE: plants.dfy ===
/** One tick of each first-order process the PID simulators drive: the tank
    level balance, the oven thermal balance and the algebraic heat-exchanger
    outlet update, together with each process's actuator saturation. */
module Plants {
  import opened Saturation

  /** Tank outflow is `0.5 * level`. */
  const OutflowCoeff: real := 0.5
  /** Oven heat capacity, heat-loss coefficient and ambient temperature. */
  const HeatCapacity: real := 100.0
  const HeatLossCoeff: real := 0.1
  const AmbientTemp: real := 25.0
  /** Heater power range is [0, PowerMax]. */
  const PowerMax: real := 100.0
  /** Effective heat-exchanger UA range. */
  const UaMin: real := 100.0
  const UaMax: real := 2000.0
  /** The `1e-6` added to `m_dot * Cp` before dividing. */
  const FlowGuard: real := 0.000001

  datatype Plant =
    | Tank(area: real, maxInflow: real)
    | Oven
    | HeatExchanger(tIn: real, tCool: real, uaBase: real, cp: real, mDot: real)

  // ---------------------------------------------------------------- tank

  /** The inflow the tank actually receives for controller output `control`. */
  function TankInflow(maxInflow: real, control: real): (u: real)
    ensures 0.0 <= u
    ensures 0.0 <= maxInflow ==> u <= maxInflow
    ensures 0.0 <= control <= maxInflow ==> u == control
    ensures control <= 0.0 || maxInflow < 0.0 ==> u == 0.0
    ensures 0.0 <= maxInflow <= control ==> u == maxInflow
  {
    Clamp(0.0, maxInflow, control)
  }

  /** The level after one tick: an explicit Euler step of
      `A * dh/dt = inflow - 0.5 * h`, then cut off at zero. */
  function TankLevel(area: real, dt: real, h: real, inflow: real): (h': real)
    requires area != 0.0
    ensures 0.0 <= h'
    ensures 0.0 < h' ==> (h' - h) * area == (inflow - OutflowCoeff * h) * dt
    ensures 0.0 < area ==> (h' == 0.0 <==> h * area + (inflow - OutflowCoeff * h) * dt <= 0.0)
    ensures area < 0.0 ==> (h' == 0.0 <==> h * area + (inflow - OutflowCoeff * h) * dt >= 0.0)
  {
    var dh := (inflow - OutflowCoeff * h) / area;
    var raw := h + dh * dt;
    ScaledEuler(area, dt, h, inflow - OutflowCoeff * h, raw);
    Max(0.0, raw)
  }

  /** `h + q / area * dt`, multiplied through by `area`. */
  lemma ScaledEuler(area: real, dt: real, h: real, q: real, raw: real)
    requires area != 0.0
    requires raw == h + q / area * dt
    ensures (raw - h) * area == q * dt
    ensures 0.0 < area ==> (raw <= 0.0 <==> h * area + q * dt <= 0.0)
    ensures area < 0.0 ==> (raw <= 0.0 <==> h * area + q * dt >= 0.0)
  {
    assert (q / area) * area == q;
    assert (raw - h) * area == (q / area) * area * dt;
    assert raw * area == h * area + q * dt;
    if 0.0 < area {
      if raw <= 0.0 {
        assert raw * area <= 0.0;
      } else {
        assert raw * area > 0.0;
      }
    } else {
      if raw <= 0.0 {
        assert raw * area >= 0.0;
      } else {
        assert raw * area < 0.0;
      }
    }
  }

  // ---------------------------------------------------------------- oven

  /** The heater power applied for controller output `control`. */
  function OvenPower(control: real): (p: real)
    ensures 0.0 <= p <= PowerMax
    ensures 0.0 <= control <= PowerMax ==> p == control
    ensures control <= 0.0 ==> p == 0.0
    ensures PowerMax <= control ==> p == PowerMax
  {
    Clamp(0.0, PowerMax, control)
  }

  /** The oven temperature after one tick: an explicit Euler step of
      `C * dT/dt = power - k * (T - ambient)`. */
  function OvenTemperature(dt: real, t: real, power: real): (t': real)
    ensures (t' - t) * HeatCapacity == (power - HeatLossCoeff * (t - AmbientTemp)) * dt
    ensures t == AmbientTemp && power == 0.0 ==> t' == AmbientTemp
  {
    var heatGain := power;
    var heatLoss := HeatLossCoeff * (t - AmbientTemp);
    t + (heatGain - heatLoss) * dt / HeatCapacity
  }

  /** With the heater off and a step no longer than the oven's time constant
      (`C / k = 1000`), one tick moves the temperature toward ambient without
      overshooting it. */
  lemma OvenCoolsTowardAmbient(dt: real, t: real)
    requires 0.0 <= dt <= HeatCapacity / HeatLossCoeff
    ensures AmbientTemp <= t ==> AmbientTemp <= OvenTemperature(dt, t, 0.0) <= t
    ensures t <= AmbientTemp ==> t <= OvenTemperature(dt, t, 0.0) <= AmbientTemp
  {
    var d := t - AmbientTemp;
    var f := 1.0 - dt / 1000.0;
    var t' := OvenTemperature(dt, t, 0.0);
    assert (t' - t) * 100.0 == (0.0 - 0.1 * d) * dt;
    assert t' - AmbientTemp == d * f;
    ScaleByFraction(d, f);
  }

  /** Multiplying by a factor in [0, 1] moves a number toward zero. */
  lemma ScaleByFraction(d: real, f: real)
    requires 0.0 <= f <= 1.0
    ensures 0.0 <= d ==> 0.0 <= d * f <= d
    ensures d <= 0.0 ==> d <= d * f <= 0.0
  {
    assert d - d * f == d * (1.0 - f);
    assert 0.0 <= 1.0 - f;
  }

  // ---------------------------------------------------------------- heat exchanger

  /** The effective UA: the base value plus the controller output, held in
      [UaMin, UaMax]. */
  function ExchangerUa(uaBase: real, control: real): (ua: real)
    ensures UaMin <= ua <= UaMax
    ensures UaMin <= uaBase + control <= UaMax ==> ua == uaBase + control
    ensures uaBase + control <= UaMin ==> ua == UaMin
    ensures UaMax <= uaBase + control ==> ua == UaMax
  {
    Clamp(UaMin, UaMax, uaBase + control)
  }

  /** The outlet temperature after one tick: the inlet temperature minus the
      heat duty `Q = UA * (T_out - T_cool)` spread over the stream's heat
      capacity rate. */
  function ExchangerOutlet(tIn: real, tCool: real, cp: real, mDot: real, tOut: real, ua: real): (t': real)
    requires mDot * cp + FlowGuard != 0.0
    ensures (tIn - t') * (mDot * cp + FlowGuard) == ua * (tOut - tCool)
    ensures tOut == tCool ==> t' == tIn
    ensures 0.0 <= mDot * cp && tCool <= tOut && 0.0 <= ua ==> t' <= tIn
  {
    var q := ua * (tOut - tCool);
    var deltaT := q / (mDot * cp + FlowGuard);
    DutyNonNegative(mDot * cp + FlowGuard, ua, tOut - tCool, q, deltaT);
    tIn - deltaT
  }

  /** `Q / c` undone, and its sign when every factor is non-negative. */
  lemma DutyNonNegative(c: real, ua: real, diff: real, q: real, deltaT: real)
    requires c != 0.0
    requires q == ua * diff
    requires deltaT == q / c
    ensures deltaT * c == ua * diff
    ensures 0.0 < c && 0.0 <= ua && 0.0 <= diff ==> 0.0 <= deltaT
  {
    if 0.0 < c && 0.0 <= ua && 0.0 <= diff {
      assert 0.0 <= ua * diff;
    }
  }

  // ---------------------------------------------------------------- dispatch

  /** The process output before the first tick. */
  function Initial(p: Plant): real
  {
    match p
    case Tank(_, _) => 0.0
    case Oven => AmbientTemp
    case HeatExchanger(tIn, _, _, _, _) => tIn
  }

  /** No division in a tick divides by zero: `dt` always, and the tank area
      or the heat-exchanger's guarded heat capacity rate. */
  predicate WellPosed(p: Plant, dt: real)
  {
    && dt != 0.0
    && (p.Tank? ==> p.area != 0.0)
    && (p.HeatExchanger? ==> p.mDot * p.cp + FlowGuard != 0.0)
  }

  /** The actuator value the process receives for controller output `control`. */
  function Actuate(p: Plant, control: real): real
  {
    match p
    case Tank(_, maxInflow) => TankInflow(maxInflow, control)
    case Oven => OvenPower(control)
    case HeatExchanger(_, _, uaBase, _, _) => ExchangerUa(uaBase, control)
  }

  /** The process output after one tick with actuator value `u`. */
  function Advance(p: Plant, dt: real, value: real, u: real): real
    requires WellPosed(p, dt)
  {
    match p
    case Tank(area, _) => TankLevel(area, dt, value, u)
    case Oven => OvenTemperature(dt, value, u)
    case HeatExchanger(tIn, tCool, _, cp, mDot) => ExchangerOutlet(tIn, tCool, cp, mDot, value, u)
  }
}

=== FILE: results.dfy ===
/** The ways a simulation can stop without producing its result. */
module Results {

  datatype Fault =
    | ZeroDivision       // a Python float division by zero (ZeroDivisionError)
    | NegativeDimension  // numpy refuses to allocate an array of negative length
    | IndexOutOfRange    // an array index past the end (IndexError)
    | NonFinite          // numpy would divide by zero here and produce inf or nan

  datatype Result<T> = Ok(value: T) | Err(fault: Fault)
}

=== FILE: saturation.dfy ===
/** Saturation helpers shared by every simulator: Python's built-in `max`/`min`
    on two numbers and the `max(lo, min(hi, v))` clamp idiom the apps use for
    actuators and compositions. */
module Saturation {

  /** Python `max(a, b)`: the first argument unless the second is strictly greater. */
  function Max(a: real, b: real): (r: real)
    ensures a <= r && b <= r
    ensures r == a || r == b
  {
    if b > a then b else a
  }

  /** Python `min(a, b)`: the first argument unless the second is strictly smaller. */
  function Min(a: real, b: real): (r: real)
    ensures r <= a && r <= b
    ensures r == a || r == b
  {
    if b < a then b else a
  }

  /** `max(lo, min(hi, v))`. Its properties are stated separately in
      `ClampCases`, so that callers working with non-linear arguments do not
      carry them into every proof. */
  function Clamp(lo: real, hi: real, v: real): real
  {
    Max(lo, Min(hi, v))
  }

  /** The clamp never goes below `lo`, stays within `[lo, hi]` when that
      interval is non-empty, leaves values inside the interval unchanged and
      saturates at the nearer bound otherwise. When the bounds are inverted
      (`hi < lo`) the outer `max` wins and the result is `lo`, exactly as in
      Python. */
  lemma ClampCases(lo: real, hi: real, v: real)
    ensures lo <= Clamp(lo, hi, v)
    ensures lo <= hi ==> Clamp(lo, hi, v) <= hi
    ensures lo <= v <= hi ==> Clamp(lo, hi, v) == v
    ensures v <= lo ==> Clamp(lo, hi, v) == lo
    ensures lo <= hi <= v ==> Clamp(lo, hi, v) == hi
    ensures hi < lo ==> Clamp(lo, hi, v) == lo
  {
  }
}

=== FILE: tank_app.dfy ===
/** The tank level simulator: PID-driven inflow into a tank with a linear
    outflow. Defaults of `simulate_tank`: setpoint 5.0, 100 ticks, dt 1.0,
    area 1.0, maximum inflow 5.0. */
module TankApp {
  import Pid
  import opened Saturation
  import opened Plants
  import opened Results
  import opened ClosedLoop

  function TankConfig(kp: real, ki: real, kd: real, setpoint: real, dt: real, area: real, maxInflow: real): Config
  {
    Config(Tank(area, maxInflow), Pid.Gains(kp, ki, kd), setpoint, dt)
  }

  /** The whole run: one recorded level per tick, each the level after that
      tick, never negative, and all zero when every gain is zero. A run of at
      least one tick with `dt == 0` or `area == 0` stops with a division by
      zero. */
  method SimulateTank(kp: real, ki: real, kd: real, setpoint: real := 5.0, simTime: int := 100, dt: real := 1.0,
                      area: real := 1.0, maxInflow: real := 5.0)
    returns (r: Result<History>)
    ensures r.Err? <==> 1 <= simTime && (dt == 0.0 || area == 0.0)
    ensures r.Err? ==> r.fault == ZeroDivision
    ensures r.Ok? ==> |r.value.time| == Horizon(simTime) && |r.value.values| == Horizon(simTime)
    ensures r.Ok? ==> forall k :: 0 <= k < |r.value.time| ==> r.value.time[k] == k
    ensures r.Ok? ==> forall k :: 0 <= k < |r.value.values| ==> 0.0 <= r.value.values[k]
    ensures r.Ok? && kp == 0.0 && ki == 0.0 && kd == 0.0 ==>
      forall k :: 0 <= k < |r.value.values| ==> r.value.values[k] == 0.0
    ensures r.Ok? ==> forall k :: 0 <= k < |r.value.values| ==>
      dt != 0.0 && area != 0.0 && r.value.values[k] == Run(TankConfig(kp, ki, kd, setpoint, dt, area, maxInflow), k + 1).value
  {
    var cfg := TankConfig(kp, ki, kd, setpoint, dt, area, maxInflow);
    r := Simulate(cfg, simTime);
    if r.Ok? {
      forall k | 0 <= k < |r.value.values|
        ensures 0.0 <= r.value.values[k]
      {
        LevelAfterTickNonNegative(cfg, k + 1);
      }
      if kp == 0.0 && ki == 0.0 && kd == 0.0 {
        forall k | 0 <= k < |r.value.values|
          ensures r.value.values[k] == 0.0
        {
          ZeroGainsStayEmpty(cfg, k + 1);
        }
      }
    }
  }

  /** The inflow a tick applies is never negative and, when the maximum
      inflow is non-negative, never above it. */
  lemma InflowWithinLimits(cfg: Config, s: LoopState)
    requires cfg.plant.Tank? && WellPosed(cfg.plant, cfg.dt)
    ensures 0.0 <= Step(cfg, s).actuation
    ensures 0.0 <= cfg.plant.maxInflow ==> Step(cfg, s).actuation <= cfg.plant.maxInflow
  {
  }

  /** Every level after a tick is at least zero. */
  lemma LevelAfterTickNonNegative(cfg: Config, k: nat)
    requires cfg.plant.Tank? && WellPosed(cfg.plant, cfg.dt)
    requires 0 < k
    ensures 0.0 <= Run(cfg, k).value
  {
    var prev := Run(cfg, k - 1);
    assert Run(cfg, k) == Step(cfg, prev).next;
  }

  /** One tick written out as the loop body of `simulate_tank` computes it, against the
      model's composition of PID update, inflow clamp and level update. */
  lemma TankTickIsLoopBody(cfg: Config, s: LoopState)
    requires cfg.plant.Tank? && WellPosed(cfg.plant, cfg.dt)
    ensures
      var error := cfg.setpoint - s.value;
      var integral := s.pid.integral + error * cfg.dt;
      var derivative := (error - s.pid.prevError) / cfg.dt;
      var inflow := Max(0.0, Min(cfg.plant.maxInflow,
                       cfg.gains.kp * error + cfg.gains.ki * integral + cfg.gains.kd * derivative));
      var outflow := OutflowCoeff * s.value;
      var h := Max(0.0, s.value + (inflow - outflow) / cfg.plant.area * cfg.dt);
      Step(cfg, s) == Tick(error, derivative, cfg.gains.kp * error + cfg.gains.ki * integral + cfg.gains.kd * derivative,
                           inflow, LoopState(h, Pid.State(integral, error)))
  {
    TankTickController(cfg, s);
    TankTickProcess(cfg, s);
  }

  /** The controller half of `TankTickIsLoopBody`: error, derivative, output
      and new memory. */
  lemma TankTickController(cfg: Config, s: LoopState)
    requires cfg.plant.Tank? && WellPosed(cfg.plant, cfg.dt)
    ensures
      var error := cfg.setpoint - s.value;
      var integral := s.pid.integral + error * cfg.dt;
      var derivative := (error - s.pid.prevError) / cfg.dt;
      && Step(cfg, s).error == error
      && Step(cfg, s).derivative == derivative
      && Step(cfg, s).control == cfg.gains.kp * error + cfg.gains.ki * integral + cfg.gains.kd * derivative
      && Step(cfg, s).next.pid == Pid.State(integral, error)
  {
  }

  /** The process half of `TankTickIsLoopBody`: clamped inflow and new level. */
  lemma TankTickProcess(cfg: Config, s: LoopState)
    requires cfg.plant.Tank? && WellPosed(cfg.plant, cfg.dt)
    ensures
      var inflow := Max(0.0, Min(cfg.plant.maxInflow, Step(cfg, s).control));
      && Step(cfg, s).actuation == inflow
      && Step(cfg, s).next.value == Max(0.0, s.value + (inflow - OutflowCoeff * s.value) / cfg.plant.area * cfg.dt)
  {
  }

  /** A tick from an empty tank with all gains zero applies no inflow and
      leaves the tank empty. */
  lemma ZeroGainsTickKeepsEmpty(cfg: Config, s: LoopState)
    requires cfg.plant.Tank? && WellPosed(cfg.plant, cfg.dt)
    requires cfg.gains == Pid.Gains(0.0, 0.0, 0.0)
    requires s.value == 0.0
    ensures Step(cfg, s).actuation == 0.0
    ensures Step(cfg, s).next.value == 0.0
  {
  }

  /** With all gains zero the tank never receives inflow and every level,
      recorded or not, is exactly zero. */
  lemma {:induction false} ZeroGainsStayEmpty(cfg: Config, k: nat)
    requires cfg.plant.Tank? && WellPosed(cfg.plant, cfg.dt)
    requires cfg.gains == Pid.Gains(0.0, 0.0, 0.0)
    ensures Run(cfg, k).value == 0.0
    ensures Step(cfg, Run(cfg, k)).actuation == 0.0
  {
    if k > 0 {
      ZeroGainsStayEmpty(cfg, k - 1);
      var prev := Run(cfg, k - 1);
      ZeroGainsTickKeepsEmpty(cfg, prev);
      assert Run(cfg, k) == Step(cfg, prev).next;
    }
    ZeroGainsTickKeepsEmpty(cfg, Run(cfg, k));
  }
}
